=== FILE: README.md ===
# Task store of a period-based to-do app, in Dafny

This project models the in-memory task store of a small to-do application (a Capacitor
web app). Tasks are kept in three lists, one per period: day, week and month.

- A `Task` is a mutable object with a text, an optional due date and a completed flag.
  It serialises field for field to a plain record and back.
- The `TaskManager` keeps the three lists of task objects.
  - It appends new tasks.
  - It edits, removes and toggles a task by its position in the insertion-ordered
    list. A position out of range is a no-op.
  - After every successful change it writes the whole collection to storage.
  - It loads the collection back as fresh task objects.
- The period view shows a sorted copy of a list: dated tasks first, in ascending date
  order, and undated tasks last.
- The renderer maps each task of the sorted view back to its position in the stored
  list with `indexOf`. That position is what the toggle, edit and delete buttons pass
  back to the store.
- The translation service keeps the interface language and looks keys up in its
  tables.
- The application controller's save dispatches to add or to update.

How the model is laid out:

- `task.dfy` (module `TaskModel`): the `Task` class and the `TaskRecord` value it
  serialises to.
- `date_order.dfy` (module `DateOrder`):
  - the comparator as written and as corrected;
  - the stable insertion sort, computed on positions;
  - its proofs: a permutation, sorted, stable, dated before undated, dates ascending.
- `task_manager.dfy` (module `TaskStore`):
  - the `TaskManager` class;
  - the record-level specification of every mutation (`AddRecord`, `UpdateRecord`,
    `RemoveRecord`, `ToggleRecord`);
  - the invariant that no task object occurs twice (`Unique`).
- `renderer.dfy` (module `Rendering`): `indexOf` and the index mapping of `render`.
- `translation.dfy` (module `Translation`): the translation tables and the service.
- `app.dfy` (module `App`): the save dispatch and client scenarios.

Modelling choices:

- A date is `Option<int>`. `None` stands for a missing date (`null` or the empty
  string), and `Some(t)` for the instant the date string denotes.
- Storage is a field `stored: Option<TaskCollection>`, the last collection written.
  `None` means the slot holds nothing usable.
- A failing storage write is an input, `storageError`. It is the message the write
  throws, if it throws.
- The ghost counter `saves` counts writes. It shows that the store writes exactly
  once per successful change and never on a no-op.
- The result of `updateTask`, `removeTask` and `toggleTask` is `Option<SaveResult>`.
  `None` is the `undefined` they return when the guard fails.

## Model

| member | source | states |
|---|---|---|
| TaskModel.TaskRecord.Toggled | www/src/js/renderer.js:150-152 | the completed flag flips; text and date are kept; the result always differs from the input |
| TaskModel.TaskRecord.Updated | www/src/js/renderer.js:154-157 | text and date become the new ones; the completed flag is kept |
| TaskModel.ToggledTwice | www/src/js/renderer.js:150-152 | toggling a record twice gives it back |
| TaskModel.Task.constructor | www/src/js/renderer.js:144-148 | a new task serialises to exactly the fields it was given; the date defaults to missing and the flag to not completed |
| TaskModel.Task.Toggle | www/src/js/renderer.js:150-152 | after `toggle` the task serialises to its old record toggled |
| TaskModel.Task.Update | www/src/js/renderer.js:154-157 | after `update` the task serialises to its old record with the new text and date and the old completed flag |
| TaskModel.Task.ToJSON | www/src/js/renderer.js:159-165 | the task's three fields as a record |
| TaskModel.Task.FromJSON | www/src/js/renderer.js:167-169 | `fromJSON` builds a fresh task whose `toJSON` is the record it was built from (round trip) |
| TaskModel.Records | www/src/js/renderer.js:192-194 | the records of a list of tasks, position by position, with the same length |
| TaskModel.FromRecords | www/src/js/renderer.js:184-186 | mapping `fromJSON` over a list gives fresh, pairwise different tasks whose records are exactly the input list |
| DateOrder.Compare | www/src/js/renderer.js:204-207 | the comparator as written: a missing `a` date gives 1, then a missing `b` date gives -1, otherwise the difference of the instants, negative exactly when `a` is earlier |
| DateOrder.CompareNotAntisymmetric | www/src/js/renderer.js:204-207 | the comparator as written says that each of two undated tasks is greater than the other |
| DateOrder.CompareDates | www/src/js/renderer.js:204-207 | the corrected comparator agrees with the written one unless both dates are missing; dated compares before undated; two dates compare as their instants |
| DateOrder.CompareDatesConsistent | www/src/js/renderer.js:204-207 | the corrected comparator is antisymmetric and transitive |
| DateOrder.Insert | www/src/js/renderer.js:204-208 | inserting one position gives a run one longer that holds the new position and exactly the positions it held before |
| DateOrder.InsertAddsOne | www/src/js/renderer.js:204-208 | insertion adds exactly one occurrence of the inserted position and keeps every other occurrence (same multiset plus one) |
| DateOrder.SortOrderCorrect | www/src/js/renderer.js:203-208 | the sort order lists every position exactly once; it is sorted by the comparator and stable; no undated task precedes a dated one; dates ascend |
| DateOrder.SortedViewIsPermutation | www/src/js/renderer.js:204 | reading a list in sort order yields a permutation of it (same multiset) |
| TaskStore.PeriodLists.With | www/src/js/renderer.js:184-186 | replacing one period's list changes that list only |
| TaskStore.WriteResult | www/src/js/renderer.js:20-28 | a write reports success exactly when the storage call does not throw, and otherwise carries the thrown message |
| TaskStore.SlotAfterWrite | www/src/js/renderer.js:20-28 | a successful write replaces the slot with the snapshot; a failed one leaves it as it was |
| TaskStore.AddRecordChanges | www/src/js/renderer.js:211-215 | adding appends exactly one uncompleted record with the given text and date to the one list; the rest of that list and the other two lists are unchanged |
| TaskStore.UpdateRecordChanges | www/src/js/renderer.js:217-220 | updating position `i` sets only its text and date; its completed flag, the length and every other element and list are unchanged |
| TaskStore.RemoveRecordChanges | www/src/js/renderer.js:224-227 | removing position `i` drops that element; earlier elements stay, later ones shift down by one; nothing else is lost; the other lists are unchanged |
| TaskStore.ToggleRecordChanges | www/src/js/renderer.js:231-234 | toggling position `i` flips only its completed flag; every other element and list is unchanged |
| TaskStore.ToggleRecordTwice | www/src/js/renderer.js:231-234 | toggling the same position twice restores the whole collection |
| TaskStore.UniqueAfterAppend | www/src/js/renderer.js:212-213 | pushing a task that is in no list keeps every task object unique |
| TaskStore.UniqueAfterRemove | www/src/js/renderer.js:225-226 | splicing a position out keeps every task object unique |
| TaskStore.UniqueOfDisjoint | www/src/js/renderer.js:184-186 | three lists without repeats and with no task in common have every task object unique |
| TaskStore.RecordsOf | www/src/js/renderer.js:191-195 | the saved collection holds, for each period, the records of that period's tasks |
| TaskStore.RecordsOfAppend | www/src/js/renderer.js:213 | pushing a task appends its record to that period's saved list |
| TaskStore.RecordsOfRemove | www/src/js/renderer.js:226 | splicing out position `i` removes that record from the saved collection |
| TaskStore.FromCollection | www/src/js/renderer.js:184-186 | loading rebuilds exactly the saved collection from fresh task objects, none of them shared |
| TaskStore.TaskManager.constructor | www/src/js/renderer.js:176-179 | a new store has three empty lists, is valid and has not written yet |
| TaskStore.TaskManager.LoadTasks | www/src/js/renderer.js:181-187 | the lists become fresh tasks whose records are the stored collection, or three empty lists when storage holds nothing (the fallback of www/src/js/renderer.js:13) |
| TaskStore.TaskManager.SaveTasks | www/src/js/renderer.js:189-197 | one write of the whole snapshot; the result and the slot follow the write's outcome; the lists are untouched |
| TaskStore.TaskManager.GetTasks | www/src/js/renderer.js:199-201 | the period's own list of task objects, not copies, in which no object occurs twice while the store is valid |
| TaskStore.TaskManager.GetSortedTasks | www/src/js/renderer.js:203-209 | a copy of the list, of the same length and multiset, with no undated task before a dated one and dates ascending; the stored list is not changed |
| TaskStore.TaskManager.AddTask | www/src/js/renderer.js:211-215 | the snapshot becomes `AddRecord` of the old one; the pushed task is fresh; the whole snapshot is written once; uniqueness is kept |
| TaskStore.TaskManager.UpdateTask | www/src/js/renderer.js:217-222 | in range, the snapshot becomes `UpdateRecord` of the old one and is written once; out of range (negative included) nothing changes, nothing is written and the result is `None` |
| TaskStore.TaskManager.RemoveTask | www/src/js/renderer.js:224-229 | in range, the list becomes `old[..i] + old[i+1..]`, the snapshot becomes `RemoveRecord` of the old one and is written once; out of range nothing changes and nothing is written |
| TaskStore.TaskManager.ToggleTask | www/src/js/renderer.js:231-236 | in range, the snapshot becomes `ToggleRecord` of the old one and is written once; out of range nothing changes and nothing is written |
| TaskStore.TaskManager.Push | www/src/js/renderer.js:213 | `push` appends the task to one list and its record to that period's snapshot |
| TaskStore.TaskManager.UpdateAt | www/src/js/renderer.js:219 | updating the task object at one position changes only that position's record, because no other position holds the same object |
| TaskStore.TaskManager.ToggleAt | www/src/js/renderer.js:233 | toggling the task object at one position changes only that position's record |
| Rendering.IndexOf | www/src/js/renderer.js:275 | `indexOf` returns the first position holding exactly this object, or -1 exactly when it is absent |
| Rendering.PositionsOf | www/src/js/renderer.js:274-275 | looking up each element of a view taken from a list without repeats recovers exactly the positions it was taken from |
| Rendering.OriginalIndices | www/src/js/renderer.js:271-279 | the positions handed to the callbacks are the sort order: a permutation of the list's positions, and the k-th position holds exactly the k-th sorted task |
| Translation.TablesComplete | www/src/js/renderer.js:56-105 | the tables cover exactly "uk", "ru" and "en", and each gives every known key a non-empty text |
| Translation.KnownKeysTranslated | www/src/js/renderer.js:56-105 | in every supported language each known key has a non-empty text |
| Translation.TranslationService.constructor | www/src/js/renderer.js:106 | the service starts in Ukrainian |
| Translation.TranslationService.SetLanguage | www/src/js/renderer.js:109-113 | a language with a table becomes current; any other code leaves the current language unchanged; the current language always has a table |
| Translation.TranslationService.GetLanguage | www/src/js/renderer.js:115-117 | the current language is always one with a table |
| Translation.TranslationService.Translate | www/src/js/renderer.js:119-121 | a key with a non-empty text in the current table gives that text; a missing key gives the key itself; every known key is translated |
| App.SaveTask | www/src/js/renderer.js:560-567 | index -1 adds a task; any other index updates that position, or does nothing when it is out of range |
| App.ToggleTwice | www/src/js/renderer.js:231-234 | two toggles of the same position restore the collection, whatever the storage does |
| App.SaveThenLoad | www/src/js/renderer.js:181-197 | a successful save followed by a load gives back the same collection |
| App.MilkThenRent | www/src/js/renderer.js:211-215 | two adds to an empty store give the two records in insertion order |
| App.DatedFirst | www/src/js/renderer.js:205-206 | of an undated and a dated task, the sorted order shows the dated one first |
| App.MilkThenRentOrders | www/src/js/renderer.js:199-208 | the stored list keeps insertion order while the sorted view shows the dated task first |
| App.DatedBeforeUndated | www/src/js/renderer.js:199-208 | an undated task added before a dated one is listed first and shown second |
| App.RemoveMiddleRecords | www/src/js/renderer.js:224-227 | removing position 1 of "a", "b", "c" leaves "a", "c" |
| App.ThreeInWeek | www/src/js/renderer.js:211-215 | three adds to an empty week list give exactly those three records |
| App.RemoveMiddle | www/src/js/renderer.js:224-229 | a remove in range keeps the first and third tasks in order and writes them; a later remove out of range returns `None` and writes nothing, so there are exactly four writes (three adds, one remove) and the slot holds the first remove's snapshot |

## Left out

- Storage I/O is not modelled. `localStorage`, `JSON.parse`, `JSON.stringify` and their try/catch (www/src/js/renderer.js:10-28, and the duplicate service in storage.js) become the `stored` slot and the `storageError` input. An empty slot, and a stored string that `JSON.parse` rejects, both fall back to the empty collection; the model writes both as `None`.
- TaskStore.TaskManager.LoadTasks: a stored string that parses as JSON but lacks one of the three lists (`{}`, `null`, `[]`, `{"day":[]}`) is not modelled. The source returns the parsed value (www/src/js/renderer.js:13), and `data.day.map` or a later `.map` in `loadTasks` (www/src/js/renderer.js:184-186, outside any try) then throws a `TypeError`. When only `week` or `month` is missing, the day list has already been replaced, and `AppController.init` stops before rendering. `stored: Option<TaskCollection>` cannot hold such a value, so the model always loads successfully.
- `StorageService.getLanguage`/`setLanguage`: the language is not persisted across sessions.
- `exitApp` is left out. It is a call into the Capacitor platform plugin or `window.close`.
- `DateFormatter` and `new Date(...)` parsing are left out, because they are locale formatting and date parsing. An invalid date string makes the source comparator return `NaN`; the model has no such value, since every present date is an integer instant.
- DOM work is left out. This covers element construction in `TaskRenderer`, `ModalController`, `UIController`, `applyTranslations` and the `DOMContentLoaded` bootstrap. Only the index computation of `render` is modelled.
- `async`/`await` is left out. UI callbacks run one at a time, so every operation is synchronous in the model.
- Periods are the closed type `Period`.
  - Period strings other than `"day"`, `"week"` and `"month"` are not modelled. The application never passes one: every period comes from the fixed list at www/src/js/renderer.js:474 and www/src/js/renderer.js:541.
  - `TaskStore.TaskManager.GetTasks` therefore has no `|| []` fallback.
- TaskStore.TaskManager.UpdateTask, RemoveTask and ToggleTask take an integer index.
  - Indices that are not integers (numeric strings, array property names such as `"length"`, fractions) are not modelled. The application never passes one: an index comes from `indexOf` (www/src/js/renderer.js:275) or is the editor's `-1` (www/src/js/renderer.js:363).
  - Task objects are always truthy, so for an integer index the guard `this.tasks[period][index]` is exactly "index in range".
- Translation.TranslationService.Translate: keys inherited through the prototype chain are not modelled. The source's `this.translations[this.currentLang]?.[key] || key` also reads them, so `translate("constructor")` or `translate("toString")` returns a function rather than the key; the model returns the key for every key missing from the table.
- Translation.TranslationService.SetLanguage: keys inherited through the prototype chain, such as `"constructor"`, are not modelled. The JavaScript guard `this.translations[lang]` would accept them.
- DateOrder.SortOrderCorrect: the order of undated tasks among themselves is fixed as insertion order, because the model sorts with the corrected comparator. The source promises no order for them (see Findings).
- TaskStore.TaskManager.AddTask: the default `date = null` of `addTask` is not modelled; callers always pass a date, `None` for a missing one, as the controller does (www/src/js/renderer.js:564).
- App.SaveTask: the controller's re-render and modal close after the save are not modelled. Neither is the result of the store call, which the controller ignores.
- `capacitor.config.ts` is static build configuration and is not part of this model.

## Findings

| source | as written | input that shows it | evidently intended | confidence | as-written member | corrected member |
|---|---|---|---|---|---|---|
| www/src/js/renderer.js:205-206 | the comparator returns 1 whenever `a` has no date, before it looks at `b`; two undated tasks therefore each compare greater than the other, which is not a consistent comparator for `Array.prototype.sort`, so their relative order is implementation-defined | `getSortedTasks` on a list of two tasks with `date: null` | two undated tasks compare equal (0), so the stable sort keeps them in insertion order | medium; not executed (common engines happen to keep insertion order for this input) | DateOrder.CompareNotAntisymmetric | DateOrder.CompareDatesConsistent |

=== FILE: app.dfy ===
/** The application controller's use of the store: the add-or-update dispatch of the
    editor's save, and client scenarios that show what callers can rely on. */
module App {
  import opened TaskModel
  import opened TaskStore

  /** `AppController.saveTask`, store part: an editing index of -1 means the editor
      was opened for a new task, any other index names the task being edited. The
      store's result is awaited and ignored. */
  method SaveTask(m: TaskManager, p: Period, text: string, date: Date, index: int, storageError: Option<string>)
    requires m.Valid()
    modifies m`tasks, m`stored, m`saves, m.tasks.Get(p)
    ensures m.Valid()
    ensures index == -1 ==>
              && m.Snapshot() == AddRecord(old(m.Snapshot()), p, text, date)
              && m.stored == SlotAfterWrite(old(m.stored), m.Snapshot(), storageError)
              && m.saves == old(m.saves) + 1
    ensures index != -1 && InRange(old(m.tasks.Get(p)), index) ==>
              && m.Snapshot() == UpdateRecord(old(m.Snapshot()), p, index, text, date)
              && m.stored == SlotAfterWrite(old(m.stored), m.Snapshot(), storageError)
              && m.saves == old(m.saves) + 1
    ensures index != -1 && !InRange(old(m.tasks.Get(p)), index) ==>
              && m.Snapshot() == old(m.Snapshot())
              && m.stored == old(m.stored) && m.saves == old(m.saves)
  {
    if index == -1 {
      var _ := m.AddTask(p, text, date, storageError);
    } else {
      var _ := m.UpdateTask(p, index, text, date, storageError);
    }
  }

  /** Toggling the same position twice gives back the collection it started from,
      whatever the storage does. */
  method ToggleTwice(m: TaskManager, p: Period, index: int, firstError: Option<string>, secondError: Option<string>)
    requires m.Valid()
    modifies m`stored, m`saves, m.tasks.Get(p)
    ensures m.Valid() && m.tasks == old(m.tasks)
    ensures m.Snapshot() == old(m.Snapshot())
  {
    var _ := m.ToggleTask(p, index, firstError);
    var _ := m.ToggleTask(p, index, secondError);
    if InRange(old(m.tasks.Get(p)), index) {
      ToggleRecordTwice(old(m.Snapshot()), p, index);
    }
  }

  /** A successful save followed by a load rebuilds the same collection from fresh
      task objects. */
  method SaveThenLoad(m: TaskManager)
    requires m.Valid()
    modifies m`tasks, m`stored, m`saves
    ensures m.Valid()
    ensures m.Snapshot() == old(m.Snapshot())
    ensures m.stored == Some(m.Snapshot())
  {
    var _ := m.SaveTasks(None);
    m.LoadTasks();
  }

  /** A store over empty storage after an undated "Buy milk" and then "Pay rent",
      due on a date, were added to the day list. */
  method MilkThenRent() returns (m: TaskManager)
    ensures fresh(m) && m.Valid()
    ensures m.Snapshot() == AddRecord(AddRecord(EmptyCollection, Day, "Buy milk", None), Day, "Pay rent", Some(20240105))
  {
    m := new TaskManager(None);
    m.LoadTasks();
    var _ := m.AddTask(Day, "Buy milk", None, None);
    var _ := m.AddTask(Day, "Pay rent", Some(20240105), None);
  }

  /** Of two different tasks, an undated one and a dated one, an order that puts no
      undated task before a dated one lists the dated task first. */
  lemma DatedFirst(all: seq<Task>, sorted: seq<Task>)
    requires |all| == 2 && all[0] != all[1] && all[0].date.None? && all[1].date.Some?
    requires |sorted| == 2 && multiset(sorted) == multiset(all)
    requires !(sorted[0].date.None? && sorted[1].date.Some?)
    ensures sorted == [all[1], all[0]]
  {
    assert all == [all[0], all[1]];
    assert sorted == [sorted[0], sorted[1]];
    assert sorted[0] in multiset(all) && sorted[1] in multiset(all);
  }

  /** The two orders of the day list built by `MilkThenRent`: insertion order, and the
      sorted view with the dated task first. */
  lemma MilkThenRentOrders(m: TaskManager)
    requires m.Valid()
    requires m.Snapshot() == AddRecord(AddRecord(EmptyCollection, Day, "Buy milk", None), Day, "Pay rent", Some(20240105))
    ensures Records(m.GetTasks(Day)) == [TaskRecord("Buy milk", None, false), TaskRecord("Pay rent", Some(20240105), false)]
    ensures Records(m.GetSortedTasks(Day)) == [TaskRecord("Pay rent", Some(20240105), false), TaskRecord("Buy milk", None, false)]
  {
    var all := m.GetTasks(Day);
    var listed := Records(all);
    assert listed == [TaskRecord("Buy milk", None, false), TaskRecord("Pay rent", Some(20240105), false)];
    UniqueListDistinct(m.tasks, Day);
    var sorted := m.GetSortedTasks(Day);
    DatedFirst(all, sorted);
    assert Records(sorted) == [listed[1], listed[0]];
  }

  /** Starting from empty storage: add an undated "Buy milk", then "Pay rent" due on
      a date; the sorted view shows the dated task first. */
  method DatedBeforeUndated() returns (listed: seq<TaskRecord>, shown: seq<TaskRecord>)
    ensures listed == [TaskRecord("Buy milk", None, false), TaskRecord("Pay rent", Some(20240105), false)]
    ensures shown == [TaskRecord("Pay rent", Some(20240105), false), TaskRecord("Buy milk", None, false)]
  {
    var m := MilkThenRent();
    MilkThenRentOrders(m);
    listed := Records(m.GetTasks(Day));
    shown := Records(m.GetSortedTasks(Day));
  }

  /** The collection after adding "a", "b" and "c" to the week list of an empty
      collection and removing position 1. */
  lemma RemoveMiddleRecords()
    ensures var c := AddRecord(AddRecord(AddRecord(EmptyCollection, Week, "a", None), Week, "b", None), Week, "c", None);
            1 < |c.Get(Week)| &&
            RemoveRecord(c, Week, 1) == PeriodLists([], [TaskRecord("a", None, false), TaskRecord("c", None, false)], [])
  {
    var c := AddRecord(AddRecord(AddRecord(EmptyCollection, Week, "a", None), Week, "b", None), Week, "c", None);
    assert c.week == [TaskRecord("a", None, false), TaskRecord("b", None, false), TaskRecord("c", None, false)];
    var r := RemoveRecord(c, Week, 1);
    assert r.week == [TaskRecord("a", None, false), TaskRecord("c", None, false)];
  }

  /** A store over empty storage after "a", "b" and "c" were added to the week list,
      each add writing once. */
  method ThreeInWeek() returns (m: TaskManager)
    ensures fresh(m) && m.Valid() && m.saves == 3
    ensures m.Snapshot() == AddRecord(AddRecord(AddRecord(EmptyCollection, Week, "a", None), Week, "b", None), Week, "c", None)
  {
    m := new TaskManager(None);
    var _ := m.AddTask(Week, "a", None, None);
    var _ := m.AddTask(Week, "b", None, None);
    var _ := m.AddTask(Week, "c", None, None);
  }

  /** Removing position 1 of three keeps the first and the third in order; a
      remove at position 5 afterwards returns nothing and writes nothing, so the
      three adds and the one remove in range are the only writes. */
  method RemoveMiddle() returns (m: TaskManager, missing: Option<SaveResult>, after: seq<TaskRecord>, slot: Option<TaskCollection>)
    ensures missing == None
    ensures m.saves == 4
    ensures after == [TaskRecord("a", None, false), TaskRecord("c", None, false)]
    ensures slot == m.stored == Some(PeriodLists([], after, []))
  {
    m := ThreeInWeek();
    RemoveMiddleRecords();
    var _ := m.RemoveTask(Week, 1, None);
    missing := m.RemoveTask(Week, 5, None);
    after := Records(m.GetTasks(Week));
    slot := m.stored;
  }
}

=== FILE: date_order.dfy ===
/** The order of the sorted task view: the comparator of `getSortedTasks`, and the
    stable sort it is used with, computed on positions so that every element of the
    sorted view remembers where it stands in the insertion-ordered list. */
module DateOrder {
  import opened TaskModel

  /** The comparator as the application writes it: a missing date on the left compares
      greater, then a missing date on the right compares smaller, otherwise the
      difference of the two instants. */
  function Compare(a: Date, b: Date): (c: int)
    ensures a.None? ==> c == 1
    ensures a.Some? && b.None? ==> c == -1
    ensures a.Some? && b.Some? ==> (c < 0 <==> a.value < b.value) && (c == 0 <==> a.value == b.value)
  {
    if a.None? then 1 else if b.None? then -1 else a.value - b.value
  }

  /** Two undated tasks each compare greater than the other, so the comparator is not
      antisymmetric (not a consistent comparator in the sense of the ECMAScript
      definition of Array.prototype.sort). */
  lemma CompareNotAntisymmetric()
    ensures Compare(None, None) > 0
    ensures exists a: Date, b: Date :: Compare(a, b) > 0 && Compare(b, a) > 0
  {
    assert Compare(None, None) > 0;
  }

  /** The comparator with the missing case filled in: two undated tasks compare
      equal. It agrees with Compare whenever at least one date is present. */
  function CompareDates(a: Date, b: Date): (c: int)
    ensures !(a.None? && b.None?) ==> c == Compare(a, b)
    ensures a.None? && b.None? ==> c == 0
    ensures a.Some? && b.None? ==> c < 0
    ensures a.Some? && b.Some? ==> (c <= 0 <==> a.value <= b.value)
  {
    if a.None? && b.None? then 0 else Compare(a, b)
  }

  /** CompareDates is a consistent comparator: antisymmetric and transitive. */
  lemma CompareDatesConsistent(a: Date, b: Date, c: Date)
    ensures CompareDates(a, b) == -CompareDates(b, a)
    ensures CompareDates(a, b) <= 0 && CompareDates(b, c) <= 0 ==> CompareDates(a, c) <= 0
    ensures CompareDates(a, b) < 0 && CompareDates(b, c) <= 0 ==> CompareDates(a, c) < 0
    ensures CompareDates(a, b) <= 0 && CompareDates(b, c) < 0 ==> CompareDates(a, c) < 0
  {
  }

  /** Every element of `s` is a position below `n`. */
  predicate Below(s: seq<nat>, n: nat)
  {
    forall k :: 0 <= k < |s| ==> s[k] < n
  }

  /** No element occurs twice in `s`. */
  predicate Distinct<T(==)>(s: seq<T>)
  {
    forall k, l :: 0 <= k < l < |s| ==> s[k] != s[l]
  }

  /** `s` lists every position below `n` exactly once. */
  ghost predicate IsIndexPermutation(s: seq<nat>, n: nat)
  {
    && |s| == n
    && (forall x: nat :: x in s <==> x < n)
    && Distinct(s)
  }

  /** The positions in `s` are in ascending date order. */
  ghost predicate SortedBy(keys: seq<Date>, s: seq<nat>)
    requires Below(s, |keys|)
  {
    forall k, l :: 0 <= k < l < |s| ==> CompareDates(keys[s[k]], keys[s[l]]) <= 0
  }

  /** Positions whose dates compare equal keep their relative order. */
  ghost predicate Stable(keys: seq<Date>, s: seq<nat>)
    requires Below(s, |keys|)
  {
    forall k, l :: 0 <= k < l < |s| && CompareDates(keys[s[k]], keys[s[l]]) == 0 ==> s[k] < s[l]
  }

  /** Inserts position `i` in front of the first position whose date is strictly
      later, that is, after every position that does not come after it. */
  function Insert(keys: seq<Date>, i: nat, s: seq<nat>): (r: seq<nat>)
    requires i < |keys| && Below(s, |keys|)
    ensures |r| == |s| + 1
    ensures forall x :: x in r <==> x == i || x in s
    // the same fact by position, the form the sort proofs index with
    ensures forall k :: 0 <= k < |r| ==> r[k] == i || r[k] in s
    decreases s
  {
    if s == [] then [i]
    else if CompareDates(keys[i], keys[s[0]]) < 0 then [i] + s
    else [s[0]] + Insert(keys, i, s[1..])
  }

  /** Insertion adds exactly one occurrence of the inserted position and keeps every
      other occurrence. */
  lemma {:induction false} InsertAddsOne(keys: seq<Date>, i: nat, s: seq<nat>)
    requires i < |keys| && Below(s, |keys|)
    ensures multiset(Insert(keys, i, s)) == multiset(s) + multiset{i}
  {
    if s != [] && CompareDates(keys[i], keys[s[0]]) >= 0 {
      InsertAddsOne(keys, i, s[1..]);
      assert s == [s[0]] + s[1..];
    }
  }

  /** Insertion sort of the first `n` positions by their dates. */
  function SortPrefix(keys: seq<Date>, n: nat): (r: seq<nat>)
    requires n <= |keys|
    ensures Below(r, n)
  {
    if n == 0 then [] else Insert(keys, n - 1, SortPrefix(keys, n - 1))
  }

  /** The positions of a list in the order the sorted view shows them. */
  function SortOrder(keys: seq<Date>): seq<nat>
  {
    SortPrefix(keys, |keys|)
  }

  /** The elements of `s` at the positions `order`, in that order. */
  function Permute<T>(s: seq<T>, order: seq<nat>): (r: seq<T>)
    requires Below(order, |s|)
    ensures |r| == |order|
    ensures forall k :: 0 <= k < |order| ==> r[k] == s[order[k]]
  {
    seq(|order|, k requires 0 <= k < |order| => s[order[k]])
  }

  /** Putting in front a position that no later element comes before keeps the order. */
  lemma ConsKeepsSorted(keys: seq<Date>, x: nat, t: seq<nat>)
    requires x < |keys| && Below(t, |keys|)
    requires SortedBy(keys, t)
    requires forall k :: 0 <= k < |t| ==> CompareDates(keys[x], keys[t[k]]) <= 0
    ensures SortedBy(keys, [x] + t)
  {
    var r := [x] + t;
    forall k, l | 0 <= k < l < |r|
      ensures CompareDates(keys[r[k]], keys[r[l]]) <= 0
    {
      if k > 0 {
        assert r[k] == t[k - 1] && r[l] == t[l - 1];
      } else {
        assert r[l] == t[l - 1];
      }
    }
  }

  /** In Insert's second branch, the head of `s` comes no later than anything after it. */
  lemma {:induction false} HeadNotAfterInserted(keys: seq<Date>, i: nat, s: seq<nat>)
    requires i < |keys| && Below(s, |keys|) && s != []
    requires SortedBy(keys, s)
    requires CompareDates(keys[i], keys[s[0]]) >= 0
    ensures forall k :: 0 <= k < |Insert(keys, i, s[1..])| ==>
              CompareDates(keys[s[0]], keys[Insert(keys, i, s[1..])[k]]) <= 0
  {
    var t := Insert(keys, i, s[1..]);
    forall k | 0 <= k < |t|
      ensures CompareDates(keys[s[0]], keys[t[k]]) <= 0
    {
      if t[k] == i {
        CompareDatesConsistent(keys[i], keys[s[0]], keys[i]);
      } else {
        assert t[k] in s[1..];
        var m :| 0 <= m < |s[1..]| && s[1..][m] == t[k];
        assert s[m + 1] == t[k];
      }
    }
  }

  lemma {:induction false} InsertKeepsSorted(keys: seq<Date>, i: nat, s: seq<nat>)
    requires i < |keys| && Below(s, |keys|)
    requires SortedBy(keys, s)
    ensures SortedBy(keys, Insert(keys, i, s))
  {
    if s == [] {
    } else if CompareDates(keys[i], keys[s[0]]) < 0 {
      forall k | 0 <= k < |s|
        ensures CompareDates(keys[i], keys[s[k]]) <= 0
      {
        CompareDatesConsistent(keys[i], keys[s[0]], keys[s[k]]);
        if k > 0 {
          assert CompareDates(keys[s[0]], keys[s[k]]) <= 0;
        }
      }
      ConsKeepsSorted(keys, i, s);
    } else {
      assert SortedBy(keys, s[1..]) by {
        forall k, l | 0 <= k < l < |s[1..]|
          ensures CompareDates(keys[s[1..][k]], keys[s[1..][l]]) <= 0
        {
          assert s[1..][k] == s[k + 1] && s[1..][l] == s[l + 1];
        }
      }
      InsertKeepsSorted(keys, i, s[1..]);
      HeadNotAfterInserted(keys, i, s);
      ConsKeepsSorted(keys, s[0], Insert(keys, i, s[1..]));
    }
  }

  /** Putting in front a position that is smaller than every position after it
      that compares equal keeps the order stable. */
  lemma ConsKeepsStable(keys: seq<Date>, x: nat, t: seq<nat>)
    requires x < |keys| && Below(t, |keys|)
    requires Stable(keys, t)
    requires forall k :: 0 <= k < |t| && CompareDates(keys[x], keys[t[k]]) == 0 ==> x < t[k]
    ensures Stable(keys, [x] + t)
  {
    var r := [x] + t;
    forall k, l | 0 <= k < l < |r| && CompareDates(keys[r[k]], keys[r[l]]) == 0
      ensures r[k] < r[l]
    {
      if k > 0 {
        assert r[k] == t[k - 1] && r[l] == t[l - 1];
      } else {
        assert r[l] == t[l - 1];
      }
    }
  }

  lemma {:induction false} SuffixStable(keys: seq<Date>, s: seq<nat>)
    requires Below(s, |keys|) && s != []
    requires SortedBy(keys, s) && Stable(keys, s)
    ensures SortedBy(keys, s[1..]) && Stable(keys, s[1..])
  {
    forall k, l | 0 <= k < l < |s[1..]|
      ensures CompareDates(keys[s[1..][k]], keys[s[1..][l]]) <= 0
      ensures CompareDates(keys[s[1..][k]], keys[s[1..][l]]) == 0 ==> s[1..][k] < s[1..][l]
    {
      assert s[1..][k] == s[k + 1] && s[1..][l] == s[l + 1];
    }
  }

  lemma {:induction false} InsertKeepsStable(keys: seq<Date>, i: nat, s: seq<nat>)
    requires i < |keys| && Below(s, |keys|)
    requires SortedBy(keys, s) && Stable(keys, s)
    requires Below(s, i)
    ensures Stable(keys, Insert(keys, i, s))
  {
    if s == [] {
    } else if CompareDates(keys[i], keys[s[0]]) < 0 {
      forall k | 0 <= k < |s|
        ensures CompareDates(keys[i], keys[s[k]]) < 0
      {
        CompareDatesConsistent(keys[i], keys[s[0]], keys[s[k]]);
        if k > 0 {
          assert CompareDates(keys[s[0]], keys[s[k]]) <= 0;
        }
      }
      ConsKeepsStable(keys, i, s);
    } else {
      SuffixStable(keys, s);
      InsertKeepsStable(keys, i, s[1..]);
      var t := Insert(keys, i, s[1..]);
      forall k | 0 <= k < |t| && CompareDates(keys[s[0]], keys[t[k]]) == 0
        ensures s[0] < t[k]
      {
        if t[k] != i {
          assert t[k] in s[1..];
          var m :| 0 <= m < |s[1..]| && s[1..][m] == t[k];
          assert s[m + 1] == t[k];
        }
      }
      ConsKeepsStable(keys, s[0], t);
    }
  }

  lemma {:induction false} InsertKeepsDistinct(keys: seq<Date>, i: nat, s: seq<nat>)
    requires i < |keys| && Below(s, |keys|)
    requires Distinct(s) && i !in s
    ensures Distinct(Insert(keys, i, s))
  {
    var r := Insert(keys, i, s);
    if s != [] && CompareDates(keys[i], keys[s[0]]) >= 0 {
      var t := Insert(keys, i, s[1..]);
      assert s[0] !in s[1..];
      InsertKeepsDistinct(keys, i, s[1..]);
      assert r == [s[0]] + t;
      assert s[0] !in t;
    }
  }

  /** A bound on every position also holds for any larger bound. */
  lemma BelowWeaken(s: seq<nat>, m: nat, n: nat)
    requires Below(s, m) && m <= n
    ensures Below(s, n)
  {
  }

  /** One step of the insertion sort: inserting the next position into a permutation
      of the earlier ones gives a permutation of one more position. */
  lemma PermutationStep(keys: seq<Date>, n: nat)
    requires 0 < n <= |keys| && IsIndexPermutation(SortPrefix(keys, n - 1), n - 1)
    ensures IsIndexPermutation(SortPrefix(keys, n), n)
  {
    var s := SortPrefix(keys, n - 1);
    BelowWeaken(s, n - 1, |keys|);
    InsertKeepsDistinct(keys, n - 1, s);
  }

  /** The insertion sort of the first `n` positions lists each of them exactly once. */
  lemma {:induction false} SortPrefixPermutation(keys: seq<Date>, n: nat)
    requires n <= |keys|
    ensures IsIndexPermutation(SortPrefix(keys, n), n)
  {
    if n > 0 {
      SortPrefixPermutation(keys, n - 1);
      PermutationStep(keys, n);
    }
  }

  /** One step of the insertion sort keeps it sorted by date. */
  lemma SortedStep(keys: seq<Date>, n: nat)
    requires 0 < n <= |keys| && SortedBy(keys, SortPrefix(keys, n - 1))
    ensures SortedBy(keys, SortPrefix(keys, n))
  {
    var s := SortPrefix(keys, n - 1);
    BelowWeaken(s, n - 1, |keys|);
    InsertKeepsSorted(keys, n - 1, s);
  }

  /** The insertion sort of the first `n` positions is sorted by date. */
  lemma {:induction false} SortPrefixSorted(keys: seq<Date>, n: nat)
    requires n <= |keys|
    ensures SortedBy(keys, SortPrefix(keys, n))
  {
    if n > 0 {
      SortPrefixSorted(keys, n - 1);
      SortedStep(keys, n);
    }
  }

  /** One step of the insertion sort keeps it stable. */
  lemma StableStep(keys: seq<Date>, n: nat)
    requires 0 < n <= |keys|
    requires SortedBy(keys, SortPrefix(keys, n - 1)) && Stable(keys, SortPrefix(keys, n - 1))
    ensures Stable(keys, SortPrefix(keys, n))
  {
    var s := SortPrefix(keys, n - 1);
    BelowWeaken(s, n - 1, |keys|);
    InsertKeepsStable(keys, n - 1, s);
  }

  /** The insertion sort of the first `n` positions is stable. */
  lemma {:induction false} SortPrefixStable(keys: seq<Date>, n: nat)
    requires n <= |keys|
    ensures Stable(keys, SortPrefix(keys, n))
  {
    if n > 0 {
      SortPrefixSorted(keys, n - 1);
      SortPrefixStable(keys, n - 1);
      StableStep(keys, n);
    }
  }

  /** The sorted view lists every position of the list exactly once; dated tasks come
      first in ascending date order, undated tasks last, and tasks whose dates compare
      equal keep their insertion order. */
  lemma SortOrderCorrect(keys: seq<Date>)
    ensures IsIndexPermutation(SortOrder(keys), |keys|)
    ensures SortedBy(keys, SortOrder(keys))
    ensures Stable(keys, SortOrder(keys))
    ensures forall k, l :: 0 <= k < l < |keys| ==>
              !(keys[SortOrder(keys)[k]].None? && keys[SortOrder(keys)[l]].Some?)
    ensures forall k, l :: 0 <= k < l < |keys| && keys[SortOrder(keys)[k]].Some? && keys[SortOrder(keys)[l]].Some? ==>
              keys[SortOrder(keys)[k]].value <= keys[SortOrder(keys)[l]].value
  {
    SortPrefixPermutation(keys, |keys|);
    SortPrefixSorted(keys, |keys|);
    SortPrefixStable(keys, |keys|);
  }

  lemma PermuteCons<T>(s: seq<T>, x: nat, t: seq<nat>)
    requires x < |s| && Below(t, |s|)
    ensures Below([x] + t, |s|)
    ensures Permute(s, [x] + t) == [s[x]] + Permute(s, t)
  {
    assert forall k :: 0 < k < |t| + 1 ==> ([x] + t)[k] == t[k - 1];
  }

  lemma {:induction false} PermuteInsert<T>(s: seq<T>, keys: seq<Date>, i: nat, t: seq<nat>)
    requires |s| == |keys| && i < |keys| && Below(t, |keys|)
    ensures multiset(Permute(s, Insert(keys, i, t))) == multiset(Permute(s, t)) + multiset{s[i]}
  {
    if t == [] {
      PermuteCons(s, i, t);
    } else if CompareDates(keys[i], keys[t[0]]) < 0 {
      PermuteCons(s, i, t);
    } else {
      var u := Insert(keys, i, t[1..]);
      PermuteInsert(s, keys, i, t[1..]);
      PermuteCons(s, t[0], u);
      PermuteCons(s, t[0], t[1..]);
      assert [t[0]] + t[1..] == t;
    }
  }

  lemma PermuteStep<T>(s: seq<T>, keys: seq<Date>, n: nat, t: seq<nat>)
    requires 0 < n <= |s| == |keys| && Below(t, |keys|)
    requires multiset(Permute(s, t)) == multiset(s[..n - 1])
    ensures multiset(Permute(s, Insert(keys, n - 1, t))) == multiset(s[..n])
  {
    PermuteInsert(s, keys, n - 1, t);
    assert s[..n] == s[..n - 1] + [s[n - 1]];
  }

  lemma {:induction false} PermutePrefix<T>(s: seq<T>, keys: seq<Date>, n: nat)
    requires |s| == |keys| && n <= |keys|
    ensures multiset(Permute(s, SortPrefix(keys, n))) == multiset(s[..n])
  {
    if n == 0 {
      assert Permute(s, []) == [];
    } else {
      var t := SortPrefix(keys, n - 1);
      assert Below(t, |keys|);
      PermutePrefix(s, keys, n - 1);
      PermuteStep(s, keys, n, t);
    }
  }

  /** Reading a list in sort order yields a permutation of it. */
  lemma SortedViewIsPermutation<T>(s: seq<T>, keys: seq<Date>)
    requires |s| == |keys|
    ensures multiset(Permute(s, SortOrder(keys))) == multiset(s)
  {
    PermutePrefix(s, keys, |keys|);
    assert s[..|keys|] == s;
  }
}

=== FILE: renderer.dfy ===
/** The index mapping of `TaskRenderer.render`: each task of the sorted view is looked
    up in the insertion-ordered list with `indexOf`, and the position found is what
    the toggle, edit and delete callbacks receive. */
module Rendering {
  import opened TaskModel
  import opened DateOrder
  import opened TaskStore

  /** `Array.prototype.indexOf` on object references: the first position holding
      exactly this object, or -1. */
  method IndexOf(all: seq<Task>, t: Task) returns (i: int)
    ensures -1 <= i < |all|
    ensures i == -1 <==> t !in all
    ensures 0 <= i ==> all[i] == t && forall j :: 0 <= j < i ==> all[j] != t
  {
    i := 0;
    while i < |all|
      invariant 0 <= i <= |all|
      invariant forall j :: 0 <= j < i ==> all[j] != t
    {
      if all[i] == t {
        return;
      }
      i := i + 1;
    }
    i := -1;
  }

  /** Looks up every element of `view` in `all` with indexOf. When `view` was read off
      `all` at the positions `order` and no object occurs twice in `all`, the lookups
      recover exactly those positions. */
  method PositionsOf(all: seq<Task>, view: seq<Task>, ghost order: seq<nat>) returns (indices: seq<int>)
    requires Distinct(all)
    requires Below(order, |all|) && view == Permute(all, order)
    ensures indices == order
  {
    indices := [];
    var k := 0;
    while k < |view|
      invariant 0 <= k <= |view|
      invariant indices == order[..k]
    {
      var originalIndex := IndexOf(all, view[k]);
      indices := indices + [originalIndex];
      k := k + 1;
    }
  }

  /** The position passed to the callbacks for each row of the sorted view: the k-th
      row's position holds exactly the k-th sorted task, and the positions are the
      ones the sort carried along, so every task of the list is reached exactly once. */
  method OriginalIndices(m: TaskManager, p: Period) returns (indices: seq<int>)
    requires m.Valid()
    ensures indices == SortOrder(DatesOf(m.GetTasks(p)))
    ensures IsIndexPermutation(SortOrder(DatesOf(m.GetTasks(p))), |m.GetTasks(p)|)
    ensures forall k :: 0 <= k < |indices| ==>
              0 <= indices[k] < |m.GetTasks(p)| && m.GetTasks(p)[indices[k]] == m.GetSortedTasks(p)[k]
  {
    var sortedTasks := m.GetSortedTasks(p);
    var allTasks := m.GetTasks(p);
    SortOrderCorrect(DatesOf(allTasks));
    UniqueListDistinct(m.tasks, p);
    indices := PositionsOf(allTasks, sortedTasks, SortOrder(DatesOf(allTasks)));
  }
}

=== FILE: task.dfy ===
/** The Task model: a mutable record of text, optional due date and a completed flag,
    and the plain record it is serialised to and from. */
module TaskModel {

  datatype Option<+T> = None | Some(value: T)

  /** A due date. The application stores date strings and orders them as instants;
      here a date is the instant itself, and `None` stands for a missing (null or
      empty) date. */
  type Date = Option<int>

  /** The JSON shape `{text, date, completed}` that a task is saved as. */
  datatype TaskRecord = TaskRecord(text: string, date: Date, completed: bool)
  {
    /** The record after the task it describes is toggled. */
    function Toggled(): (r: TaskRecord)
      ensures r.completed == !completed
      ensures r.text == text && r.date == date
      ensures r != this
    {
      this.(completed := !completed)
    }

    /** The record after the task it describes is edited. */
    function Updated(newText: string, newDate: Date): (r: TaskRecord)
      ensures r.text == newText && r.date == newDate
      ensures r.completed == completed
    {
      this.(text := newText, date := newDate)
    }
  }

  /** Toggling twice gives back the original record. */
  lemma ToggledTwice(r: TaskRecord)
    ensures r.Toggled().Toggled() == r
  {
  }

  class Task {
    var text: string
    var date: Date
    var completed: bool

    /** A new task; unless told otherwise it has no date and is not completed. */
    constructor (text: string, date: Date := None, completed: bool := false)
      ensures ToJSON() == TaskRecord(text, date, completed)
    {
      this.text := text;
      this.date := date;
      this.completed := completed;
    }

    /** Flips the completed flag in place. */
    method Toggle()
      modifies this
      ensures ToJSON() == old(ToJSON()).Toggled()
    {
      completed := !completed;
    }

    /** Overwrites text and date in place; the completed flag is kept. */
    method Update(newText: string, newDate: Date)
      modifies this
      ensures ToJSON() == old(ToJSON()).Updated(newText, newDate)
    {
      text := newText;
      date := newDate;
    }

    /** The field-for-field serialisation of this task. */
    function ToJSON(): (r: TaskRecord)
      reads this
      ensures r.text == text && r.date == date && r.completed == completed
    {
      TaskRecord(text, date, completed)
    }

    /** Builds a fresh task from a saved record; the inverse of ToJSON. */
    static method FromJSON(r: TaskRecord) returns (t: Task)
      ensures fresh(t)
      ensures t.ToJSON() == r
    {
      t := new Task(r.text, r.date, r.completed);
    }
  }

  /** The records of a sequence of tasks, position by position. */
  function Records(ts: seq<Task>): (rs: seq<TaskRecord>)
    reads ts
    ensures |rs| == |ts|
    ensures forall k :: 0 <= k < |ts| ==> rs[k] == ts[k].ToJSON()
  {
    seq(|ts|, k reads ts requires 0 <= k < |ts| => ts[k].ToJSON())
  }

  /** Builds one fresh task per record, in order (the `map(t => Task.fromJSON(t))`
      of a period's list). */
  method FromRecords(rs: seq<TaskRecord>) returns (ts: seq<Task>)
    ensures Records(ts) == rs
    ensures forall k :: 0 <= k < |ts| ==> fresh(ts[k])
    ensures forall k, l :: 0 <= k < l < |ts| ==> ts[k] != ts[l]
  {
    ts := [];
    var i := 0;
    while i < |rs|
      invariant 0 <= i <= |rs|
      invariant |ts| == i
      invariant forall k :: 0 <= k < i ==> fresh(ts[k]) && ts[k].ToJSON() == rs[k]
      invariant forall k, l :: 0 <= k < l < i ==> ts[k] != ts[l]
    {
      var t := Task.FromJSON(rs[i]);
      ts := ts + [t];
      i := i + 1;
    }
  }
}

=== FILE: task_manager.dfy ===
/** The task store: three insertion-ordered lists of tasks keyed by period, the
    mutations on them, the sorted view, and the full-snapshot save after every
    successful mutation. */
module TaskStore {
  import opened TaskModel
  import opened DateOrder

  datatype Period = Day | Week | Month

  /** One list per period, the shape `{day, week, month}`. */
  datatype PeriodLists<T> = PeriodLists(day: seq<T>, week: seq<T>, month: seq<T>)
  {
    function Get(p: Period): seq<T>
    {
      match p
      case Day => day
      case Week => week
      case Month => month
    }

    /** The lists with the one for `p` replaced by `s`. */
    function With(p: Period, s: seq<T>): (r: PeriodLists<T>)
      ensures r.Get(p) == s
      ensures forall q :: q != p ==> r.Get(q) == Get(q)
    {
      match p
      case Day => this.(day := s)
      case Week => this.(week := s)
      case Month => this.(month := s)
    }
  }

  /** The saved form of the store: every task as its record. */
  type TaskCollection = PeriodLists<TaskRecord>

  /** What loading falls back to when storage holds nothing usable. */
  const EmptyCollection: TaskCollection := PeriodLists([], [], [])

  /** The outcome of writing the snapshot: `{success: true}` or
      `{success: false, error}`. */
  datatype SaveResult = Success | Failure(error: string)

  /** The outcome of a write whose storage call threw `storageError`, if any. */
  function WriteResult(storageError: Option<string>): (r: SaveResult)
    ensures r.Success? <==> storageError.None?
    ensures r.Failure? ==> storageError == Some(r.error)
  {
    if storageError.None? then Success else Failure(storageError.value)
  }

  /** The storage slot after writing `snapshot`: replaced on success, left as it was
      when the write throws. */
  function SlotAfterWrite(slot: Option<TaskCollection>, snapshot: TaskCollection,
                          storageError: Option<string>): (r: Option<TaskCollection>)
    ensures storageError.None? ==> r == Some(snapshot)
    ensures storageError.Some? ==> r == slot
  {
    if storageError.None? then Some(snapshot) else slot
  }

  /** The guard `if (this.tasks[period][index])`: it holds exactly when `index`
      names an element of the list, since every task object is truthy. */
  predicate InRange<T>(s: seq<T>, index: int)
  {
    0 <= index < |s|
  }

  /** `addTask`: one new uncompleted task at the end of the period's list. */
  function AddRecord(c: TaskCollection, p: Period, text: string, date: Date): TaskCollection
  {
    c.With(p, c.Get(p) + [TaskRecord(text, date, false)])
  }

  /** `updateTask` on an index in range: new text and date at `i`, nothing else. */
  function UpdateRecord(c: TaskCollection, p: Period, i: nat, text: string, date: Date): TaskCollection
    requires i < |c.Get(p)|
  {
    c.With(p, c.Get(p)[i := c.Get(p)[i].Updated(text, date)])
  }

  /** `removeTask` on an index in range: the element at `i` is gone and every later
      element moves down by one. */
  function RemoveRecord(c: TaskCollection, p: Period, i: nat): TaskCollection
    requires i < |c.Get(p)|
  {
    c.With(p, c.Get(p)[..i] + c.Get(p)[i + 1..])
  }

  /** `toggleTask` on an index in range: only the completed flag at `i` flips. */
  function ToggleRecord(c: TaskCollection, p: Period, i: nat): TaskCollection
    requires i < |c.Get(p)|
  {
    c.With(p, c.Get(p)[i := c.Get(p)[i].Toggled()])
  }

  /** Adding appends exactly the new uncompleted record to the one list. */
  lemma AddRecordChanges(c: TaskCollection, p: Period, text: string, date: Date)
    ensures var r := AddRecord(c, p, text, date);
            && |r.Get(p)| == |c.Get(p)| + 1
            && r.Get(p)[..|c.Get(p)|] == c.Get(p)
            && r.Get(p)[|c.Get(p)|] == TaskRecord(text, date, false)
            && forall q :: q != p ==> r.Get(q) == c.Get(q)
  {
  }

  /** Updating rewrites the text and date at `i`, keeps its completed flag and
      touches nothing else. */
  lemma UpdateRecordChanges(c: TaskCollection, p: Period, i: nat, text: string, date: Date)
    requires i < |c.Get(p)|
    ensures var r := UpdateRecord(c, p, i, text, date);
            && |r.Get(p)| == |c.Get(p)|
            && r.Get(p)[i] == TaskRecord(text, date, c.Get(p)[i].completed)
            && (forall k :: 0 <= k < |c.Get(p)| && k != i ==> r.Get(p)[k] == c.Get(p)[k])
            && forall q :: q != p ==> r.Get(q) == c.Get(q)
  {
  }

  /** Removing drops the element at `i`, shifts the later ones down by one, loses
      nothing else and touches no other list. */
  lemma RemoveRecordChanges(c: TaskCollection, p: Period, i: nat)
    requires i < |c.Get(p)|
    ensures var r := RemoveRecord(c, p, i);
            && |r.Get(p)| == |c.Get(p)| - 1
            && (forall k :: 0 <= k < i ==> r.Get(p)[k] == c.Get(p)[k])
            && (forall k :: i <= k < |r.Get(p)| ==> r.Get(p)[k] == c.Get(p)[k + 1])
            && multiset(r.Get(p)) + multiset{c.Get(p)[i]} == multiset(c.Get(p))
            && forall q :: q != p ==> r.Get(q) == c.Get(q)
  {
    var s := c.Get(p);
    assert s == s[..i] + [s[i]] + s[i + 1..];
  }

  /** Toggling flips the completed flag at `i` and touches nothing else. */
  lemma ToggleRecordChanges(c: TaskCollection, p: Period, i: nat)
    requires i < |c.Get(p)|
    ensures var r := ToggleRecord(c, p, i);
            && |r.Get(p)| == |c.Get(p)|
            && r.Get(p)[i] == TaskRecord(c.Get(p)[i].text, c.Get(p)[i].date, !c.Get(p)[i].completed)
            && (forall k :: 0 <= k < |c.Get(p)| && k != i ==> r.Get(p)[k] == c.Get(p)[k])
            && forall q :: q != p ==> r.Get(q) == c.Get(q)
  {
  }

  /** Toggling the same position twice restores the whole collection. */
  lemma ToggleRecordTwice(c: TaskCollection, p: Period, i: nat)
    requires i < |c.Get(p)|
    ensures ToggleRecord(ToggleRecord(c, p, i), p, i) == c
  {
    var r := ToggleRecord(ToggleRecord(c, p, i), p, i);
    assert r.Get(p) == c.Get(p);
    match p
    case Day => assert r.day == c.day;
    case Week => assert r.week == c.week;
    case Month => assert r.month == c.month;
  }

  /** Two collections with the same list for every period are equal. */
  lemma SameLists<T>(a: PeriodLists<T>, b: PeriodLists<T>)
    requires forall q :: a.Get(q) == b.Get(q)
    ensures a == b
  {
    assert a.Get(Day) == b.Get(Day) && a.Get(Week) == b.Get(Week) && a.Get(Month) == b.Get(Month);
  }

  /** The due dates of a list of tasks, position by position. */
  function DatesOf(ts: seq<Task>): (ds: seq<Date>)
    reads ts
    ensures |ds| == |ts|
    ensures forall k :: 0 <= k < |ts| ==> ds[k] == ts[k].date
  {
    seq(|ts|, k reads ts requires 0 <= k < |ts| => ts[k].date)
  }

  /** No task object appears twice, in one list or across lists. */
  ghost predicate Unique(ts: PeriodLists<Task>)
  {
    forall p, q, i, j ::
      0 <= i < |ts.Get(p)| && 0 <= j < |ts.Get(q)| && ts.Get(p)[i] == ts.Get(q)[j] ==> p == q && i == j
  }

  /** Within one period no task object occurs twice. */
  lemma UniqueListDistinct(ts: PeriodLists<Task>, p: Period)
    requires Unique(ts)
    ensures Distinct(ts.Get(p))
  {
  }

  /** Appending a task that is in no list keeps every task object unique. */
  lemma UniqueAfterAppend(ts: PeriodLists<Task>, p: Period, t: Task)
    requires Unique(ts)
    requires forall q :: t !in ts.Get(q)
    ensures Unique(ts.With(p, ts.Get(p) + [t]))
  {
    var us := ts.With(p, ts.Get(p) + [t]);
    var n := |ts.Get(p)|;
    forall p1, q1, i1, j1 | 0 <= i1 < |us.Get(p1)| && 0 <= j1 < |us.Get(q1)| && us.Get(p1)[i1] == us.Get(q1)[j1]
      ensures p1 == q1 && i1 == j1
    {
      if !(p1 == p && i1 == n) && !(q1 == p && j1 == n) {
        assert us.Get(p1)[i1] == ts.Get(p1)[i1];
        assert us.Get(q1)[j1] == ts.Get(q1)[j1];
      }
    }
  }

  /** The element at `k` after removing position `i` is the one that was at `k`
      before it and at `k + 1` from it on. */
  lemma RemovedAt<T>(s: seq<T>, i: nat, k: nat)
    requires i < |s| && k < |s| - 1
    ensures (s[..i] + s[i + 1..])[k] == s[if k < i then k else k + 1]
  {
  }

  /** Removing a position keeps every task object unique. */
  lemma UniqueAfterRemove(ts: PeriodLists<Task>, p: Period, i: nat)
    requires Unique(ts) && i < |ts.Get(p)|
    ensures Unique(ts.With(p, ts.Get(p)[..i] + ts.Get(p)[i + 1..]))
  {
    var s := ts.Get(p);
    var us := ts.With(p, s[..i] + s[i + 1..]);
    forall p1, q1, i1, j1 | 0 <= i1 < |us.Get(p1)| && 0 <= j1 < |us.Get(q1)| && us.Get(p1)[i1] == us.Get(q1)[j1]
      ensures p1 == q1 && i1 == j1
    {
      var i0 := if p1 == p && i1 >= i then i1 + 1 else i1;
      var j0 := if q1 == p && j1 >= i then j1 + 1 else j1;
      if p1 == p {
        RemovedAt(s, i, i1);
      }
      if q1 == p {
        RemovedAt(s, i, j1);
      }
      assert ts.Get(p1)[i0] == ts.Get(q1)[j0];
    }
  }

  /** Three lists without repeats and without a task in common are unique together. */
  lemma UniqueOfDisjoint(day: seq<Task>, week: seq<Task>, month: seq<Task>)
    requires Distinct(day) && Distinct(week) && Distinct(month)
    requires forall i, j :: 0 <= i < |day| && 0 <= j < |week| ==> day[i] != week[j]
    requires forall i, j :: 0 <= i < |day| && 0 <= j < |month| ==> day[i] != month[j]
    requires forall i, j :: 0 <= i < |week| && 0 <= j < |month| ==> week[i] != month[j]
    ensures Unique(PeriodLists(day, week, month))
  {
    var ts := PeriodLists(day, week, month);
    assert ts.Get(Day) == day && ts.Get(Week) == week && ts.Get(Month) == month;
  }

  /** The records of every list of task objects. */
  function RecordsOf(ts: PeriodLists<Task>): (c: TaskCollection)
    reads ts.day, ts.week, ts.month
    ensures forall q :: c.Get(q) == Records(ts.Get(q))
  {
    PeriodLists(Records(ts.day), Records(ts.week), Records(ts.month))
  }

  /** Pushing a task onto one list appends its record to that list's records. */
  lemma RecordsOfAppend(ts: PeriodLists<Task>, p: Period, t: Task)
    ensures RecordsOf(ts.With(p, ts.Get(p) + [t])) == RecordsOf(ts).With(p, RecordsOf(ts).Get(p) + [t.ToJSON()])
  {
    var us := ts.With(p, ts.Get(p) + [t]);
    assert Records(us.Get(p)) == Records(ts.Get(p)) + [t.ToJSON()];
    SameLists(RecordsOf(us), RecordsOf(ts).With(p, RecordsOf(ts).Get(p) + [t.ToJSON()]));
  }

  /** Splicing a position out of one list removes its record from that list's records. */
  lemma RecordsOfRemove(ts: PeriodLists<Task>, p: Period, i: nat)
    requires i < |ts.Get(p)|
    ensures RecordsOf(ts.With(p, ts.Get(p)[..i] + ts.Get(p)[i + 1..])) == RemoveRecord(RecordsOf(ts), p, i)
  {
    var s := ts.Get(p);
    var us := ts.With(p, s[..i] + s[i + 1..]);
    assert Records(us.Get(p)) == Records(s)[..i] + Records(s)[i + 1..];
    SameLists(RecordsOf(us), RemoveRecord(RecordsOf(ts), p, i));
  }

  /** Fresh task objects for every record of a collection, list by list (the
      `map(t => Task.fromJSON(t))` applied to each period of the parsed data). */
  method FromCollection(data: TaskCollection) returns (ts: PeriodLists<Task>)
    ensures Unique(ts)
    ensures RecordsOf(ts) == data
    ensures forall p, k :: 0 <= k < |ts.Get(p)| ==> fresh(ts.Get(p)[k])
  {
    var day := FromRecords(data.day);
    ghost var dayRecords := Records(day);
    var week := FromRecords(data.week);
    assert Records(day) == dayRecords;
    assert forall i, j :: 0 <= i < |day| && 0 <= j < |week| ==> day[i] != week[j];
    var month := FromRecords(data.month);
    assert Records(day) == dayRecords && Records(week) == data.week;
    assert forall i, j :: 0 <= i < |day| && 0 <= j < |month| ==> day[i] != month[j];
    assert forall i, j :: 0 <= i < |week| && 0 <= j < |month| ==> week[i] != month[j];
    UniqueOfDisjoint(day, week, month);
    ts := PeriodLists(day, week, month);
  }

  class TaskManager {
    /** The in-memory lists of task objects. */
    var tasks: PeriodLists<Task>
    /** The storage slot the snapshot is written to: `None` when it holds nothing or
        nothing that parses. */
    var stored: Option<TaskCollection>
    /** How many times the snapshot has been written. */
    ghost var saves: nat

    /** Every task object in the lists is a different object: each was created by
        `new Task` when it was added or loaded. */
    ghost predicate Valid()
      reads this`tasks
    {
      Unique(tasks)
    }

    /** The collection as saveTasks serialises it. */
    function Snapshot(): TaskCollection
      reads this`tasks, tasks.day, tasks.week, tasks.month
    {
      RecordsOf(tasks)
    }

    /** `new TaskManager(storage)`: three empty lists over an existing storage slot. */
    constructor (slot: Option<TaskCollection>)
      ensures Valid()
      ensures Snapshot() == EmptyCollection
      ensures stored == slot && saves == 0
    {
      tasks := PeriodLists([], [], []);
      stored := slot;
      saves := 0;
    }

    /** Replaces the lists wholesale with fresh tasks built from the storage slot, or
        with empty lists when the slot holds nothing usable. */
    method LoadTasks()
      modifies this`tasks
      ensures Valid()
      ensures Snapshot() == if stored.Some? then stored.value else EmptyCollection
      ensures forall p, k :: 0 <= k < |tasks.Get(p)| ==> fresh(tasks.Get(p)[k])
    {
      var data := if stored.Some? then stored.value else EmptyCollection;
      tasks := FromCollection(data);
    }

    /** Writes the whole snapshot to the storage slot; `storageError` is the message
        the storage call throws, if it throws. */
    method SaveTasks(storageError: Option<string>) returns (r: SaveResult)
      modifies this`stored, this`saves
      ensures Snapshot() == old(Snapshot())
      ensures r == WriteResult(storageError)
      ensures stored == SlotAfterWrite(old(stored), Snapshot(), storageError)
      ensures saves == old(saves) + 1
    {
      if storageError.None? {
        stored := Some(Snapshot());
        r := Success;
      } else {
        r := Failure(storageError.value);
      }
      saves := saves + 1;
    }

    /** The insertion-ordered list of a period: the task objects the store holds, not
        copies of them, with no object listed twice while the store is valid. */
    function GetTasks(p: Period): (r: seq<Task>)
      reads this`tasks
      ensures Valid() ==> Distinct(r)
    {
      tasks.Get(p)
    }

    /** A sorted copy of a period's list: a permutation of it in which every dated
        task precedes every undated one and dates ascend. */
    function GetSortedTasks(p: Period): (r: seq<Task>)
      reads this`tasks, tasks.Get(p)
      ensures |r| == |tasks.Get(p)|
      ensures multiset(r) == multiset(tasks.Get(p))
      // membership by position, which callers reason with directly
      ensures forall k :: 0 <= k < |r| ==> r[k] in tasks.Get(p)
      ensures forall k, l :: 0 <= k < l < |r| ==> !(r[k].date.None? && r[l].date.Some?)
      ensures forall k, l :: 0 <= k < l < |r| && r[k].date.Some? && r[l].date.Some? ==>
                r[k].date.value <= r[l].date.value
    {
      var ts := tasks.Get(p);
      var keys := DatesOf(ts);
      SortOrderCorrect(keys);
      SortedViewIsPermutation(ts, keys);
      Permute(ts, SortOrder(keys))
    }

    method AddTask(p: Period, text: string, date: Date, storageError: Option<string>) returns (r: SaveResult)
      requires Valid()
      modifies this`tasks, this`stored, this`saves
      ensures Valid()
      ensures Snapshot() == AddRecord(old(Snapshot()), p, text, date)
      ensures tasks == old(tasks).With(p, old(tasks.Get(p)) + [tasks.Get(p)[|tasks.Get(p)| - 1]])
      ensures fresh(tasks.Get(p)[|tasks.Get(p)| - 1])
      ensures r == WriteResult(storageError)
      ensures stored == SlotAfterWrite(old(stored), Snapshot(), storageError)
      ensures saves == old(saves) + 1
    {
      ghost var before := Snapshot();
      var t := new Task(text, date);
      assert Snapshot() == before;
      Push(p, t);
      assert Snapshot() == AddRecord(before, p, text, date);
      r := SaveTasks(storageError);
    }

    method UpdateTask(p: Period, index: int, text: string, date: Date, storageError: Option<string>)
      returns (r: Option<SaveResult>)
      requires Valid()
      modifies this`stored, this`saves, tasks.Get(p)
      ensures Valid() && tasks == old(tasks)
      ensures InRange(old(tasks.Get(p)), index) ==>
                && Snapshot() == UpdateRecord(old(Snapshot()), p, index, text, date)
                && r == Some(WriteResult(storageError))
                && stored == SlotAfterWrite(old(stored), Snapshot(), storageError)
                && saves == old(saves) + 1
      ensures !InRange(old(tasks.Get(p)), index) ==>
                && Snapshot() == old(Snapshot())
                && r == None
                && stored == old(stored) && saves == old(saves)
    {
      if InRange(tasks.Get(p), index) {
        ghost var before := Snapshot();
        UpdateAt(p, index, text, date);
        ghost var after := Snapshot();
        assert after == UpdateRecord(before, p, index, text, date);
        var res := SaveTasks(storageError);
        r := Some(res);
      } else {
        r := None;
      }
    }

    method RemoveTask(p: Period, index: int, storageError: Option<string>) returns (r: Option<SaveResult>)
      requires Valid()
      modifies this`tasks, this`stored, this`saves
      ensures Valid()
      ensures InRange(old(tasks.Get(p)), index) ==>
                && tasks == old(tasks).With(p, old(tasks.Get(p))[..index] + old(tasks.Get(p))[index + 1..])
                && Snapshot() == RemoveRecord(old(Snapshot()), p, index)
                && r == Some(WriteResult(storageError))
                && stored == SlotAfterWrite(old(stored), Snapshot(), storageError)
                && saves == old(saves) + 1
      ensures !InRange(old(tasks.Get(p)), index) ==>
                && tasks == old(tasks)
                && r == None
                && stored == old(stored) && saves == old(saves)
    {
      if InRange(tasks.Get(p), index) {
        var s := tasks.Get(p);
        RecordsOfRemove(tasks, p, index);
        UniqueAfterRemove(tasks, p, index);
        tasks := tasks.With(p, s[..index] + s[index + 1..]);
        var res := SaveTasks(storageError);
        r := Some(res);
      } else {
        r := None;
      }
    }

    method ToggleTask(p: Period, index: int, storageError: Option<string>) returns (r: Option<SaveResult>)
      requires Valid()
      modifies this`stored, this`saves, tasks.Get(p)
      ensures Valid() && tasks == old(tasks)
      ensures InRange(old(tasks.Get(p)), index) ==>
                && Snapshot() == ToggleRecord(old(Snapshot()), p, index)
                && r == Some(WriteResult(storageError))
                && stored == SlotAfterWrite(old(stored), Snapshot(), storageError)
                && saves == old(saves) + 1
      ensures !InRange(old(tasks.Get(p)), index) ==>
                && Snapshot() == old(Snapshot())
                && r == None
                && stored == old(stored) && saves == old(saves)
    {
      if InRange(tasks.Get(p), index) {
        ghost var before := Snapshot();
        ToggleAt(p, index);
        ghost var after := Snapshot();
        assert after == ToggleRecord(before, p, index);
        var res := SaveTasks(storageError);
        r := Some(res);
      } else {
        r := None;
      }
    }

    /** `this.tasks[period].push(task)` for a task that is in no list yet. */
    method Push(p: Period, t: Task)
      requires Valid()
      requires forall q :: t !in tasks.Get(q)
      modifies this`tasks
      ensures Valid()
      ensures tasks == old(tasks).With(p, old(tasks.Get(p)) + [t])
      ensures Snapshot() == old(Snapshot()).With(p, old(Snapshot()).Get(p) + [t.ToJSON()])
    {
      RecordsOfAppend(tasks, p, t);
      UniqueAfterAppend(tasks, p, t);
      tasks := tasks.With(p, tasks.Get(p) + [t]);
    }

    /** `this.tasks[period][index].update(text, date)`: only that position's record
        changes, because no other position holds the same task object. */
    method UpdateAt(p: Period, index: nat, text: string, date: Date)
      requires Valid() && index < |tasks.Get(p)|
      modifies tasks.Get(p)[index]
      ensures Snapshot() == UpdateRecord(old(Snapshot()), p, index, text, date)
    {
      ghost var before := Snapshot();
      var t := tasks.Get(p)[index];
      t.Update(text, date);
      ghost var expected := UpdateRecord(before, p, index, text, date);
      forall q, k | 0 <= k < |tasks.Get(q)|
        ensures Records(tasks.Get(q))[k] == expected.Get(q)[k]
      {
        if q != p || k != index {
          assert tasks.Get(q)[k] != t;
        }
      }
      SameLists(Snapshot(), expected);
    }

    /** `this.tasks[period][index].toggle()`: only that position's record changes. */
    method ToggleAt(p: Period, index: nat)
      requires Valid() && index < |tasks.Get(p)|
      modifies tasks.Get(p)[index]
      ensures Snapshot() == ToggleRecord(old(Snapshot()), p, index)
    {
      ghost var before := Snapshot();
      var t := tasks.Get(p)[index];
      t.Toggle();
      ghost var expected := ToggleRecord(before, p, index);
      forall q, k | 0 <= k < |tasks.Get(q)|
        ensures Records(tasks.Get(q))[k] == expected.Get(q)[k]
      {
        if q != p || k != index {
          assert tasks.Get(q)[k] != t;
        }
      }
      SameLists(Snapshot(), expected);
    }
  }
}

=== FILE: translation.dfy ===
/** The translation service: the current interface language, changed only to a
    language the table knows, and key lookup that falls back to the key itself. */
module Translation {

  /** The translation tables, one per supported language code. */
  const Ukrainian: map<string, string> := map[
    "title" := "Мої завдання",
    "day" := "День",
    "week" := "Тиждень",
    "month" := "Місяць",
    "add" := "+ Додати",
    "add_task" := "Додати завдання",
    "edit_task" := "Редагувати завдання",
    "save" := "Зберегти",
    "cancel" := "Скасувати",
    "exit" := "Вийти",
    "enter_task" := "Введіть завдання...",
    "confirm_delete" := "Видалити це завдання?",
    "empty_task" := "Введіть текст завдання",
    "confirm_exit" := "Ви впевнені, що хочете вийти?"
  ]

  const Russian: map<string, string> := map[
    "title" := "Мои задачи",
    "day" := "День",
    "week" := "Неделя",
    "month" := "Месяц",
    "add" := "+ Добавить",
    "add_task" := "Добавить задачу",
    "edit_task" := "Редактировать задачу",
    "save" := "Сохранить",
    "cancel" := "Отмена",
    "exit" := "Выйти",
    "enter_task" := "Введите задачу...",
    "confirm_delete" := "Удалить эту задачу?",
    "empty_task" := "Введите текст задачи",
    "confirm_exit" := "Вы уверены, что хотите выйти?"
  ]

  const English: map<string, string> := map[
    "title" := "My Tasks",
    "day" := "Day",
    "week" := "Week",
    "month" := "Month",
    "add" := "+ Add",
    "add_task" := "Add task",
    "edit_task" := "Edit task",
    "save" := "Save",
    "cancel" := "Cancel",
    "exit" := "Exit",
    "enter_task" := "Enter task...",
    "confirm_delete" := "Delete this task?",
    "empty_task" := "Enter task text",
    "confirm_exit" := "Are you sure you want to exit?"
  ]

  const Translations: map<string, map<string, string>> :=
    map["uk" := Ukrainian, "ru" := Russian, "en" := English]

  /** The language a new service starts in. */
  const DefaultLanguage: string := "uk"

  /** The keys every table defines. */
  const Keys: set<string> := {
    "title", "day", "week", "month", "add", "add_task", "edit_task", "save",
    "cancel", "exit", "enter_task", "confirm_delete", "empty_task", "confirm_exit"
  }

  /** A table that gives every known key a non-empty text. */
  ghost predicate Complete(table: map<string, string>)
  {
    forall key :: key in Keys ==> key in table && table[key] != ""
  }

  lemma UkrainianComplete()
    ensures Complete(Ukrainian)
  {
  }

  lemma RussianComplete()
    ensures Complete(Russian)
  {
  }

  lemma EnglishComplete()
    ensures Complete(English)
  {
  }

  /** Every supported language has a complete table. */
  lemma TablesComplete()
    ensures Translations.Keys == {"uk", "ru", "en"}
    ensures forall lang :: lang in Translations ==> Complete(Translations[lang])
  {
    UkrainianComplete();
    RussianComplete();
    EnglishComplete();
  }

  class TranslationService {
    var currentLang: string

    /** The current language always has a table. */
    ghost predicate Valid()
      reads this
    {
      currentLang in Translations
    }

    constructor ()
      ensures Valid() && currentLang == DefaultLanguage
    {
      currentLang := DefaultLanguage;
    }

    /** Switches to `lang` when a table exists for it; otherwise nothing changes. */
    method SetLanguage(lang: string)
      requires Valid()
      modifies this
      ensures Valid()
      ensures lang in Translations ==> currentLang == lang
      ensures lang !in Translations ==> currentLang == old(currentLang)
    {
      if lang in Translations {
        currentLang := lang;
      }
    }

    /** The current language. The point of the contract is the service invariant:
        callers may rely on the returned code having a table. */
    function GetLanguage(): (lang: string)
      reads this
      ensures Valid() ==> lang in Translations
    {
      currentLang
    }

    /** The current language's text for `key`, or `key` itself when the table has no
        text for it (a missing or empty entry). Every known key is translated in every
        supported language. */
    function Translate(key: string): (r: string)
      reads this
      ensures Valid() && key in Keys ==> r == Translations[currentLang][key] && r != ""
      ensures currentLang in Translations && key in Translations[currentLang] && Translations[currentLang][key] != "" ==>
                r == Translations[currentLang][key]
      ensures !(currentLang in Translations && key in Translations[currentLang]) ==> r == key
    {
      TablesComplete();
      if currentLang in Translations && key in Translations[currentLang] && Translations[currentLang][key] != ""
      then Translations[currentLang][key]
      else key
    }
  }

  /** In every supported language each known key has its own text, so a switch of
      language never makes a known key fall back. */
  lemma KnownKeysTranslated(lang: string, key: string)
    requires lang in Translations && key in Keys
    ensures key in Translations[lang] && Translations[lang][key] != ""
  {
    TablesComplete();
  }
}
